=== FILE: README.md ===
# VR cursor and pod layout: a Dafny model

This project models the two pieces of event logic in a browser VR front-end that shows
cluster pods as boxes in a scene.

- **The `vive-cursor` component** (module `ViveCursor`, properties in `CursorLaws`). It is a
  laser pointer on a hand controller. The component tracks the entity under the ray
  (`intersectedEl`), the entity under the ray at the last trigger press (`mouseDownEl`) and at
  the last grip press (`gripDownEl`). It turns raycaster and button events into `mouseenter`,
  `mouseleave`, `mousedown`, `mouseup`, `click`, `podgrip` and `podgripup`. Each of these goes
  to the cursor first and then to the tracked entity, if there is one (`twoWayEmit`). Entities
  are opaque ids. A JavaScript slot is a `Ref`: `Null`, `Undefined` (never assigned) or
  `El(id)`. The `cursor-hovering` and `cursor-hovered` state tags are a set of
  `(receiver, tag)` pairs. Every handler is a pure function that returns a `Step`: the new
  state, the emissions in order, and whether the handler threw. `play`/`pause` become a
  `listening` flag, and `Dispatch` runs the handlers only while it is set.
- **The pod layout** (module `PodLayout`, properties in `PodLayoutLaws`). A React component
  keeps a list of pod records and a `podsLoaded` flag. Three socket messages update them:
  `initPod`, `newPod` and `removePod`. The component sends `sniffPods` when it mounts and
  `k8sDestroyPod` when a pod is dismissed. `render` maps the state to a holder entity with one
  pod view per record, or to a lone placeholder view. `setState` is a synchronous assignment.
  Outbound messages are appended to a log (`sent`) inside the state. A pod's `name` counts as
  set when it is present and non-empty, which is what JavaScript truthiness means for a string.

The model follows the code as written, including these behaviours:

- The grip handlers emit `podgrip` and `podgripup`. They do not emit the `gripdown`/`gripup`
  names that the component's event table declares.
- An intersection with a different nearest entity while already hovering retargets directly.
  It emits `mouseenter` for the new entity and no `mouseleave` for the old one. The old entity
  keeps its `cursor-hovered` tag.
- An intersection-cleared event removes the hovered tag from the event's own element. It sends
  `mouseleave` to the tracked element and clears that one, even when the two differ.
- A `removePod` message compares names with JavaScript `!=`. A remove without a name therefore
  drops every nameless entry, because `undefined != null` is false. This is modelled as
  `None == None`.

## Model

| member | source | states |
|---|---|---|
| ViveCursor.Init | src/js/aframe-components/ViveCursor.js:56-61 | init sets both tracked slots to null, so the cursor is idle and the tag invariant holds; the grip slot, tags and listener state are untouched |
| CursorLaws.AttachStartsIdle | src/js/aframe-components/ViveCursor.js:56-61 | on first attach, intersected and mouse-down are null, the grip slot is still undefined, and there are no tags |
| ViveCursor.TwoWayEmit | src/js/aframe-components/ViveCursor.js:184-189 | the cursor always receives the event first, with the tracked slot as detail; the tracked entity receives it second, only when there is one (1 emission idle, 2 hovering), all with the given name |
| ViveCursor.Closest | src/js/aframe-components/ViveCursor.js:150 | the nearest candidate is `els[0]`; it is an entity exactly when the list is non-empty, and `undefined` otherwise |
| ViveCursor.OnIntersection | src/js/aframe-components/ViveCursor.js:147-160 | an already-tracked candidate is a no-op; otherwise the candidate becomes tracked and the press slots are untouched; a new nearest entity adds exactly the cursor's hovering tag and its own hovered tag; the handler throws exactly on an empty list while the slot is not already undefined, and then it has emitted nothing and added only the cursor's hovering tag |
| CursorLaws.IntersectionNoopIff | src/js/aframe-components/ViveCursor.js:150-153 | an intersection event leaves the state unchanged and emits nothing if and only if its nearest candidate is already tracked |
| CursorLaws.IntersectionRetargets | src/js/aframe-components/ViveCursor.js:150-159 | a different nearest entity b becomes tracked; the cursor gets the hovering tag and b the hovered tag; the tag set grows by exactly those two tags; the trace is exactly mouseenter to the cursor then to b; no mouseleave is emitted |
| ViveCursor.OnIntersectionCleared | src/js/aframe-components/ViveCursor.js:165-179 | the handler is a no-op when the event's element or the tracked slot is falsy; otherwise exactly the event element's hovered tag and the cursor's hovering tag are removed and every other tag stays; it never throws and leaves the press slots alone |
| CursorLaws.ClearedNoopIff | src/js/aframe-components/ViveCursor.js:167-170 | a cleared event changes nothing and emits nothing if and only if the event's element or the tracked slot is not an entity |
| CursorLaws.ClearedLeavesTracked | src/js/aframe-components/ViveCursor.js:165-179 | while tracking a, the trace is exactly mouseleave to the cursor then to a; the slot becomes null; exactly the hovering tag and the event element's hovered tag are removed and every other tag stays, so a different tracked a keeps its hovered tag |
| ViveCursor.OnMouseDown | src/js/aframe-components/ViveCursor.js:118-121 | a trigger press records the tracked slot as the pressed one, changes nothing else, and emits mousedown two-way |
| CursorLaws.PressThenReleaseClicksIff | src/js/aframe-components/ViveCursor.js:118-138 | a release right after a press clicks if and only if the tracked slot is an entity, and the pressed slot then holds the tracked slot |
| ViveCursor.OnGripDown | src/js/aframe-components/ViveCursor.js:123-126 | a grip press records the tracked slot as the gripped one, leaves the tracked and pressed slots and tags alone, and emits podgrip two-way |
| ViveCursor.Clicks | src/js/aframe-components/ViveCursor.js:136 | a release completes a click exactly when the tracked slot is neither null nor undefined and is identical to the pressed slot |
| ViveCursor.OnMouseUp | src/js/aframe-components/ViveCursor.js:128-138 | a release changes no state; it emits mouseup two-way, then click two-way when it completes a click (4 emissions when clicking, else 1 or 2) |
| CursorLaws.MouseUpClickIff | src/js/aframe-components/ViveCursor.js:134-138 | the release starts with mouseup to the cursor; click is emitted if and only if an entity is tracked and equals the pressed slot; the pressed slot is not reset |
| ViveCursor.OnGripUp | src/js/aframe-components/ViveCursor.js:140-142 | a grip release changes no state and emits podgripup two-way |
| CursorLaws.GripUsesPodNames | src/js/aframe-components/ViveCursor.js:123-142 | the grip handlers emit podgrip/podgripup and never gripdown/gripup; grip press changes only the grip slot and grip release changes nothing |
| ViveCursor.Dispatch | src/js/aframe-components/ViveCursor.js:92-113 | play attaches the listeners and pause detaches them, each with no other state change, no emission and no throw; while attached, each of the six host events runs exactly the handler registered for it; while detached, every input except play is ignored; while attached, only pause detaches |
| CursorLaws.GripPressRelease | src/js/aframe-components/ViveCursor.js:95-101 | while attached, a grip press and release on a emit podgrip then podgripup, each to the cursor then to a, and record a as the gripped slot with nothing else changed |
| CursorLaws.PauseSilences | src/js/aframe-components/ViveCursor.js:212-214 | after pause, any run of inputs without play emits nothing and leaves the paused state as it is |
| CursorLaws.DetachedIgnores | src/js/aframe-components/ViveCursor.js:92-113 | from a detached state, any run of inputs without play leaves the state as it is and emits nothing |
| CursorLaws.DispatchKeepsTags | src/js/aframe-components/ViveCursor.js:147-179 | every input keeps the tag invariant: while an entity is tracked, the cursor has the hovering tag and that entity has the hovered tag |
| CursorLaws.RunKeepsTags | src/js/aframe-components/ViveCursor.js:147-179 | any run of inputs from a state with the tag invariant ends in a state with it |
| CursorLaws.PressReleaseClicks | src/js/aframe-components/ViveCursor.js:118-138 | press then release while tracking a emits exactly mousedown, mouseup and one click, each to the cursor then to a |
| CursorLaws.PressReleaseIdleNoClick | src/js/aframe-components/ViveCursor.js:118-138 | press then release with nothing tracked emits exactly mousedown and mouseup to the cursor, and no click |
| CursorLaws.DragOffNoClick | src/js/aframe-components/ViveCursor.js:118-179 | press on a, clear, find b different from a, release: the trace is exactly mousedown and mouseleave for a, mouseenter and mouseup for b, each to the cursor then to the entity, so no click; b is tracked and the pressed slot still holds a |
| CursorLaws.RetargetNoClick | src/js/aframe-components/ViveCursor.js:128-160 | press on a, direct retarget to b without a clear, release: neither click nor mouseleave is emitted |
| CursorLaws.ReturnToPressedClicks | src/js/aframe-components/ViveCursor.js:134-138 | press on a, clear, find a again, release: click is emitted, since only identity at release time matters |
| PodLayout.Initial | src/js/components/PodLayout.js:11-16 | the constructor's state has no pods, is not loaded, and has sent nothing |
| PodLayout.PodInit | src/js/components/PodLayout.js:23-26 | the snapshot replaces the list wholly with the given list and marks it loaded; nothing is sent |
| PodLayout.PodAdd | src/js/components/PodLayout.js:28-40 | a named pod is appended at the end, earlier entries unchanged; a pod without a name leaves the state unchanged; the loaded flag and log are untouched |
| PodLayout.Without | src/js/components/PodLayout.js:44-46 | the filter never grows the list, keeps no entry with the name, keeps every differently named entry with its multiplicity, and keeps nothing that was not there |
| PodLayout.PodRemove | src/js/components/PodLayout.js:42-48 | after a remove no entry carries the removed name, every differently named entry survives with its multiplicity, nothing new appears, and the loaded flag and log are untouched |
| PodLayout.Mount | src/js/components/PodLayout.js:50-56 | mounting appends one sniffPods request to the log and leaves the pods and loaded flag alone |
| PodLayout.DestroyChildPod | src/js/components/PodLayout.js:61-66 | a destroy request appends exactly one k8sDestroyPod message carrying the element id as name, and leaves the pods and loaded flag alone |
| PodLayout.HasName | src/js/components/PodLayout.js:31 | a pod's name passes the add test exactly when it is neither missing nor the empty string, which is JavaScript truthiness of a string |
| PodLayout.ViewOf | src/js/components/PodLayout.js:73 | a pod's view is keyed and named by the pod's name, carries its ip, start time, namespace and type, and has the pod colour |
| PodLayout.Views | src/js/components/PodLayout.js:72-74 | one view per pod, in list order, each built from its pod |
| PodLayout.Render | src/js/components/PodLayout.js:68-86 | once loaded, a holder with one child per pod in order, keyed and named by the pod's name; before that, exactly the red placeholder named and keyed test |
| PodLayout.Receive | src/js/components/PodLayout.js:18-20 | an inbound message never sends anything and never unloads the list |
| PodLayoutLaws.WithoutIsSubsequence | src/js/components/PodLayout.js:44-46 | the remove filter keeps the original order: its result is a subsequence of its input |
| PodLayoutLaws.WithoutKeepsUnnamed | src/js/components/PodLayout.js:44-46 | when no entry has the name, the filter returns its input |
| PodLayoutLaws.WithoutNoopIff | src/js/components/PodLayout.js:44-46 | the filter returns its input if and only if no entry carries the name |
| PodLayoutLaws.WithoutIdempotent | src/js/components/PodLayout.js:44-46 | filtering by the same name twice equals filtering once |
| PodLayoutLaws.WithoutAppend | src/js/components/PodLayout.js:44-46 | the filter distributes over concatenation |
| PodLayoutLaws.RemoveRemovesAll | src/js/components/PodLayout.js:42-47 | a remove leaves no entry with the name, keeps every differently named entry with its multiplicity, keeps order, is idempotent, and is a no-op if and only if nothing matches |
| PodLayoutLaws.RemoveUndoesAdd | src/js/components/PodLayout.js:28-47 | adding a pod and then removing its name equals removing the name alone |
| PodLayoutLaws.AddKeepsDuplicates | src/js/components/PodLayout.js:28-35 | duplicate names are not rejected: adding a named pod twice lists it twice |
| PodLayoutLaws.InitDiscardsEarlier | src/js/components/PodLayout.js:23-26 | after any history of messages, a snapshot leaves exactly its own list, loaded |
| PodLayoutLaws.ReceiveAllKeepsLog | src/js/components/PodLayout.js:18-47 | any run of inbound messages leaves the outbound log as it was and never unloads the list |
| PodLayoutLaws.NamedUntilLoaded | src/js/components/PodLayout.js:13-47 | until a snapshot arrives, every listed pod has a name, because adds check it and removes only filter |
| PodLayoutLaws.InitialRendersPlaceholder | src/js/components/PodLayout.js:80-84 | the constructor's state renders the lone placeholder named and keyed test |
| PodLayoutLaws.AddRendersAtEnd | src/js/components/PodLayout.js:68-79 | once loaded, a named add renders the previous children plus one view of the added pod at the end |
| PodLayoutLaws.MountSendsOneRequest | src/js/components/PodLayout.js:50-56 | mounting sends exactly one sniffPods message and changes neither the local state nor the rendered tree |
| PodLayoutLaws.DestroyWaitsForRemove | src/js/components/PodLayout.js:61-66 | a destroy request sends one k8sDestroyPod message and keeps the pod listed; the matching remove message then drops it |
| PodLayoutLaws.SnapshotAddRemoveScenario | src/js/components/PodLayout.js:23-47 | snapshot [a, b], then add c, then remove a gives the loaded list [b, c] |

## Left out

- The laser mesh (THREE.js cylinder, material, `setObject3D`/`removeObject3D`) and the raycaster
  attribute string (`near: 0.03; objects: …`) in `init` and `remove`. They are scene-graph side
  effects in the host library.
- The deferral of `init` until `render-target-loaded` when the scene has no canvas. This is host
  event plumbing. Only the state reset of `init` is modelled.
- `remove`: its listener detach has the same effect on the model as `pause`. Its mesh and
  raycaster removal are left out as above.
- The event payloads are kept only as the detail each emission carries. Delivery to listeners,
  bubbling, and what the receiving entities do with the events are host behaviour.
- ViveCursor.OnIntersection: on an empty candidate list the handler is modelled as far as the
  point where it throws (slot set to `undefined`, cursor tagged, nothing emitted). What the host
  does with the exception is not modelled.
- `randomPosition`: it draws floats from `Math.random` and is nondeterministic. Views carry no
  position.
- The socket.io connection and its host URL, and React's batching and asynchronous `setState`.
  The socket is an inbound call per message plus an outbound log.
- The in-place `push` in `podAddEvent`. It also mutates the array that an earlier `initPod`
  message handed over, which is not observable in a value model.
- Missing records. A `newPod` or `removePod` payload that is `null` or `undefined` throws a
  TypeError when its `name` is read (for remove, only when the list is non-empty). A `null`
  entry inside an `initPod` list throws later, in the remove filter or in `render`. The `Pod`
  type always holds a record, so none of these throws is modelled.
- Pod records whose fields are not strings, and an `initPod` message without a `podList`. Both
  fall outside JavaScript's string comparisons and array methods as modelled here.
- `src/js/components/Pod.js` (DOM queries, physics and collider attributes, the mobile-lights
  check) and `src/js/components/Floor.js` (static markup). These are host-framework side effects
  with no state logic.
- `console.log` diagnostics.

=== FILE: cursor.dfy ===
/**
 The `vive-cursor` component: a laser pointer attached to a hand controller that turns the
 host raycaster's intersection events and the controller's trigger and grip buttons into
 mouse-like events, mirrored onto the cursor entity and onto the entity under the ray.

 The component's state is two (three, counting the grip) entity slots and the hover tags
 it puts on entities. Every handler is a pure function from the old state to a `Step`:
 the new state plus the events it emitted, in order.
 */
module ViveCursor {

  /** Opaque handle of a scene entity other than the cursor's own entity. */
  type Id = nat

  /** A JavaScript property holding an entity: `null`, never assigned (`undefined`), or an entity. */
  datatype Ref = Null | Undefined | El(id: Id) {
    /** JavaScript truthiness: only an actual entity is truthy. */
    predicate Truthy() { El? }
  }

  /** Who receives an emitted event: the cursor's own entity or another entity. */
  datatype Receiver = Cursor | Entity(id: Id)

  /** The event detail: the cursor side carries the intersected slot, the target side the cursor. */
  datatype Detail = IntersectedEl(el: Ref) | CursorEl

  datatype Emission = Emission(to: Receiver, name: string, detail: Detail)

  // Event names of the component's vocabulary.
  const CLICK := "click"
  const MOUSEENTER := "mouseenter"
  const MOUSEDOWN := "mousedown"
  const MOUSELEAVE := "mouseleave"
  const MOUSEUP := "mouseup"
  const GRIPDOWN := "gripdown"
  const GRIPUP := "gripup"
  // The names the grip handlers actually emit.
  const PODGRIP := "podgrip"
  const PODGRIPUP := "podgripup"

  // State tags.
  const HOVERING := "cursor-hovering"
  const HOVERED := "cursor-hovered"

  /** A state tag carried by an entity. */
  datatype Tag = Tag(on: Receiver, state: string)

  datatype CursorState = CursorState(
    intersected: Ref,  // entity currently under the ray
    mouseDown: Ref,    // entity under the ray at the last trigger press
    gripDown: Ref,     // entity under the ray at the last grip press
    tags: set<Tag>,    // state tags the component has put on entities
    listening: bool    // whether the six handlers are attached
  )

  /** The outcome of one handler: new state, emissions in order, and whether it threw. */
  datatype Step = Step(state: CursorState, trace: seq<Emission>, threw: bool)

  /** The host inputs the component reacts to, including its own play/pause lifecycle. */
  datatype Input =
    | Intersection(els: seq<Id>)       // candidates, nearest first
    | IntersectionCleared(el: Ref)     // the entity that stopped intersecting
    | TriggerDown
    | TriggerUp
    | GripDown
    | GripUp
    | Play
    | Pause

  /** True when some emission of `t` has name `name`. */
  predicate Emitted(t: seq<Emission>, name: string) {
    exists i :: 0 <= i < |t| && t[i].name == name
  }

  /** The cursor is idle when no entity is tracked. */
  predicate Idle(s: CursorState) { !s.intersected.Truthy() }

  /**
   The tag invariant: while an entity is tracked, the cursor carries the hovering tag
   and the tracked entity the hovered tag.
   */
  predicate TagsTrack(s: CursorState) {
    s.intersected.El? ==>
      Tag(Cursor, HOVERING) in s.tags && Tag(Entity(s.intersected.id), HOVERED) in s.tags
  }

  /** Before `init` runs, none of the component's properties has been assigned. */
  function Unattached(): CursorState {
    CursorState(Undefined, Undefined, Undefined, {}, false)
  }

  /** `init`, as far as the component's state goes: both tracked slots become null. */
  function Init(s: CursorState): (r: CursorState)
    ensures r.intersected == Null && r.mouseDown == Null
    ensures Idle(r) && TagsTrack(r)
    ensures r.gripDown == s.gripDown && r.tags == s.tags && r.listening == s.listening
  {
    s.(intersected := Null, mouseDown := Null)
  }

  /**
   `twoWayEmit`: the cursor always receives the event, with the intersected slot as detail;
   the intersected entity receives it second, only when there is one.
   */
  function TwoWayEmit(s: CursorState, name: string): (t: seq<Emission>)
    ensures IsTwoWay(t, s.intersected, name)
    ensures forall i :: 0 <= i < |t| ==> t[i].name == name
  {
    [Emission(Cursor, name, IntersectedEl(s.intersected))]
    + (if s.intersected.El? then [Emission(Entity(s.intersected.id), name, CursorEl)] else [])
  }

  /** The nearest candidate of an intersection event: `els[0]`, `undefined` for an empty list. */
  function Closest(els: seq<Id>): (r: Ref)
    ensures r.Truthy() <==> |els| > 0
    ensures |els| > 0 ==> r == El(els[0])
    ensures |els| == 0 ==> r == Undefined
  {
    if |els| == 0 then Undefined else El(els[0])
  }

  /**
   `onIntersection`: track the nearest candidate unless it is already tracked. A different
   candidate is tracked directly, without leaving the old one. On an empty candidate list the
   slot becomes `undefined`, the cursor is tagged, and tagging `undefined` throws.
   */
  function OnIntersection(s: CursorState, els: seq<Id>): (r: Step)
    ensures Closest(els) == s.intersected ==> r == Step(s, [], false)
    ensures Closest(els) != s.intersected ==> r.state.intersected == Closest(els)
    ensures r.state.mouseDown == s.mouseDown && r.state.gripDown == s.gripDown
    ensures r.state.listening == s.listening
    ensures r.threw <==> |els| == 0 && s.intersected != Undefined
    ensures r.threw ==> r.trace == [] && r.state.tags == s.tags + {Tag(Cursor, HOVERING)}
    ensures |els| > 0 && Closest(els) != s.intersected ==>
      r.state.tags == s.tags + {Tag(Cursor, HOVERING), Tag(Entity(els[0]), HOVERED)}
  {
    var el := Closest(els);
    if s.intersected == el then Step(s, [], false)
    else
      var s1 := s.(intersected := el, tags := s.tags + {Tag(Cursor, HOVERING)});
      match el
      case El(id) =>
        var s2 := s1.(tags := s1.tags + {Tag(Entity(id), HOVERED)});
        Step(s2, TwoWayEmit(s2, MOUSEENTER), false)
      case _ => Step(s1, [], true)
  }

  /**
   `onIntersectionCleared`: a no-op unless both the event's element and the tracked slot are
   entities. Otherwise the hovered tag is removed from the EVENT's element, `mouseleave` goes
   to the cursor and to the TRACKED entity, and only then is the tracked slot cleared.
   */
  function OnIntersectionCleared(s: CursorState, el: Ref): (r: Step)
    ensures !el.Truthy() || !s.intersected.Truthy() ==> r == Step(s, [], false)
    ensures !r.threw && r.state.listening == s.listening
    ensures r.state.mouseDown == s.mouseDown && r.state.gripDown == s.gripDown
    ensures el.Truthy() && s.intersected.Truthy() ==>
      r.state.tags == s.tags - {Tag(Entity(el.id), HOVERED), Tag(Cursor, HOVERING)}
  {
    if !el.Truthy() || !s.intersected.Truthy() then Step(s, [], false)
    else
      var s1 := s.(tags := s.tags - {Tag(Entity(el.id), HOVERED), Tag(Cursor, HOVERING)});
      Step(s1.(intersected := Null), TwoWayEmit(s1, MOUSELEAVE), false)
  }

  /** The trace of one `twoWayEmit` of `name` from a state whose tracked slot is `el`. */
  predicate IsTwoWay(t: seq<Emission>, el: Ref, name: string) {
    && |t| == (if el.Truthy() then 2 else 1)
    && t[0] == Emission(Cursor, name, IntersectedEl(el))
    && (el.El? ==> t[1] == Emission(Entity(el.id), name, CursorEl))
  }

  /** `onMouseDown`: emit `mousedown`, then remember the tracked entity as the pressed one. */
  function OnMouseDown(s: CursorState): (r: Step)
    ensures r.state.mouseDown == s.intersected && r.state.intersected == s.intersected
    ensures r.state.gripDown == s.gripDown && r.state.tags == s.tags
    ensures r.state.listening == s.listening && !r.threw
    ensures IsTwoWay(r.trace, s.intersected, MOUSEDOWN)
  {
    Step(s.(mouseDown := s.intersected), TwoWayEmit(s, MOUSEDOWN), false)
  }

  /** `onGripDown`: emit `podgrip`, then remember the tracked entity as the gripped one. */
  function OnGripDown(s: CursorState): (r: Step)
    ensures r.state.gripDown == s.intersected && r.state.intersected == s.intersected
    ensures r.state.mouseDown == s.mouseDown && r.state.tags == s.tags
    ensures r.state.listening == s.listening && !r.threw
    ensures IsTwoWay(r.trace, s.intersected, PODGRIP)
  {
    Step(s.(gripDown := s.intersected), TwoWayEmit(s, PODGRIP), false)
  }

  /** Whether a trigger release completes a click: an entity is tracked and it is the pressed one. */
  predicate Clicks(s: CursorState): (b: bool)
    ensures b <==> s.intersected != Null && s.intersected != Undefined && s.mouseDown == s.intersected
    ensures b ==> s.mouseDown.El?
  {
    s.intersected.Truthy() && s.mouseDown == s.intersected
  }

  /** `onMouseUp`: emit `mouseup`, then `click` when the release completes a click. */
  function OnMouseUp(s: CursorState): (r: Step)
    ensures r.state == s && !r.threw
    ensures |r.trace| == (if Clicks(s) then 4 else if s.intersected.Truthy() then 2 else 1)
    ensures IsTwoWay(r.trace[..(if s.intersected.Truthy() then 2 else 1)], s.intersected, MOUSEUP)
    ensures Clicks(s) ==> IsTwoWay(r.trace[2..], s.intersected, CLICK)
  {
    Step(s, TwoWayEmit(s, MOUSEUP) + (if Clicks(s) then TwoWayEmit(s, CLICK) else []), false)
  }

  /** `onGripUp`: emit `podgripup`; the state is untouched. */
  function OnGripUp(s: CursorState): (r: Step)
    ensures r.state == s && !r.threw
    ensures IsTwoWay(r.trace, s.intersected, PODGRIPUP)
  {
    Step(s, TwoWayEmit(s, PODGRIPUP), false)
  }

  /**
   Deliver one input: `play` attaches the handlers, `pause` detaches them, and the six
   handlers run only while attached.
   */
  function Dispatch(s: CursorState, input: Input): (r: Step)
    ensures !s.listening && !input.Play? ==> r == Step(s, [], false)
    ensures input.Pause? ==> r == Step(s.(listening := false), [], false)
    ensures input.Play? ==> r == Step(s.(listening := true), [], false)
    ensures s.listening && !input.Pause? ==> r.state.listening
    // While attached, each host event runs the handler registered for it.
    ensures s.listening && input.Intersection? ==> r == OnIntersection(s, input.els)
    ensures s.listening && input.IntersectionCleared? ==> r == OnIntersectionCleared(s, input.el)
    ensures s.listening && input.TriggerDown? ==> r == OnMouseDown(s)
    ensures s.listening && input.TriggerUp? ==> r == OnMouseUp(s)
    ensures s.listening && input.GripDown? ==> r == OnGripDown(s)
    ensures s.listening && input.GripUp? ==> r == OnGripUp(s)
  {
    match input
    case Play => Step(s.(listening := true), [], false)
    case Pause => Step(s.(listening := false), [], false)
    case _ =>
      if !s.listening then Step(s, [], false)
      else match input
        case Intersection(els) => OnIntersection(s, els)
        case IntersectionCleared(el) => OnIntersectionCleared(s, el)
        case TriggerDown => OnMouseDown(s)
        case TriggerUp => OnMouseUp(s)
        case GripDown => OnGripDown(s)
        case GripUp => OnGripUp(s)
  }

  /** Apply `step` to each input in turn, threading the state and concatenating the emissions. */
  function Fold(step: (CursorState, Input) -> Step, s: CursorState, inputs: seq<Input>): Step
    decreases |inputs|
  {
    if inputs == [] then Step(s, [], false)
    else
      var h := step(s, inputs[0]);
      var t := Fold(step, h.state, inputs[1..]);
      Step(t.state, h.trace + t.trace, h.threw || t.threw)
  }

  /** Deliver a sequence of inputs in order, concatenating the emissions. */
  function Run(s: CursorState, inputs: seq<Input>): Step {
    Fold(Dispatch, s, inputs)
  }
}

=== FILE: cursor_laws.dfy ===
/**
 Properties of the `vive-cursor` state machine: what each handler promises, the tag
 invariant every input preserves, and the click scenarios (press and release on one
 entity, drag-off cancellation).
 */
module CursorLaws {
  import opened ViveCursor

  /** Attaching the component leaves both tracked slots null and the grip slot unassigned. */
  lemma AttachStartsIdle()
    ensures Init(Unattached()).intersected == Null
    ensures Init(Unattached()).mouseDown == Null
    ensures Init(Unattached()).gripDown == Undefined
    ensures Init(Unattached()).tags == {} && !Init(Unattached()).listening
  {
  }

  /** An intersection event is a no-op exactly when its nearest candidate is already tracked. */
  lemma IntersectionNoopIff(s: CursorState, els: seq<Id>)
    ensures OnIntersection(s, els) == Step(s, [], false) <==> Closest(els) == s.intersected
  {
  }

  /**
   A different nearest entity is tracked directly: both hover tags are set, `mouseenter`
   goes to the cursor and then to the new entity, and nothing leaves the old entity,
   which keeps its hovered tag.
   */
  lemma IntersectionRetargets(s: CursorState, els: seq<Id>, b: Id)
    requires |els| > 0 && els[0] == b && s.intersected != El(b)
    ensures OnIntersection(s, els).state.intersected == El(b)
    ensures Tag(Cursor, HOVERING) in OnIntersection(s, els).state.tags
    ensures Tag(Entity(b), HOVERED) in OnIntersection(s, els).state.tags
    ensures OnIntersection(s, els).trace
         == [Emission(Cursor, MOUSEENTER, IntersectedEl(El(b))), Emission(Entity(b), MOUSEENTER, CursorEl)]
    ensures !Emitted(OnIntersection(s, els).trace, MOUSELEAVE)
    ensures OnIntersection(s, els).state.tags == s.tags + {Tag(Cursor, HOVERING), Tag(Entity(b), HOVERED)}
  {
  }

  /** A cleared event is a no-op exactly when its element or the tracked slot is not an entity. */
  lemma ClearedNoopIff(s: CursorState, el: Ref)
    ensures OnIntersectionCleared(s, el) == Step(s, [], false)
        <==> !el.Truthy() || !s.intersected.Truthy()
  {
  }

  /**
   A cleared event while tracking `a`: `mouseleave` goes to the cursor and then to `a`
   (whatever the event's element), the cursor ends idle and untagged, the event's element
   loses its hovered tag, and `a` keeps its tags when it is not the event's element.
   */
  lemma ClearedLeavesTracked(s: CursorState, el: Ref, a: Id)
    requires el.Truthy() && s.intersected == El(a)
    ensures OnIntersectionCleared(s, el).trace
         == [Emission(Cursor, MOUSELEAVE, IntersectedEl(El(a))), Emission(Entity(a), MOUSELEAVE, CursorEl)]
    ensures Idle(OnIntersectionCleared(s, el).state)
    ensures OnIntersectionCleared(s, el).state.intersected == Null
    ensures Tag(Cursor, HOVERING) !in OnIntersectionCleared(s, el).state.tags
    ensures Tag(Entity(el.id), HOVERED) !in OnIntersectionCleared(s, el).state.tags
    ensures el.id != a ==>
      (Tag(Entity(a), HOVERED) in OnIntersectionCleared(s, el).state.tags <==> Tag(Entity(a), HOVERED) in s.tags)
    ensures OnIntersectionCleared(s, el).state.tags == s.tags - {Tag(Entity(el.id), HOVERED), Tag(Cursor, HOVERING)}
  {
  }

  /**
   A release right after a press clicks exactly when an entity is tracked: the press records
   the tracked slot, so the release finds it equal to the pressed one unless it is not an entity.
   */
  lemma PressThenReleaseClicksIff(s: CursorState)
    ensures Emitted(OnMouseUp(OnMouseDown(s).state).trace, CLICK) <==> s.intersected.El?
    ensures OnMouseUp(OnMouseDown(s).state).state.mouseDown == s.intersected
  {
    var u := OnMouseDown(s).state;
    MouseUpClickIff(u);
  }

  /**
   A trigger release always starts with `mouseup` to the cursor, emits `click` exactly when
   an entity is tracked and it is the pressed one, and changes no state.
   */
  lemma MouseUpClickIff(s: CursorState)
    ensures OnMouseUp(s).trace[0] == Emission(Cursor, MOUSEUP, IntersectedEl(s.intersected))
    ensures Emitted(OnMouseUp(s).trace, CLICK)
        <==> s.intersected.El? && s.mouseDown == s.intersected
    ensures OnMouseUp(s).state.mouseDown == s.mouseDown
  {
  }

  /**
   The grip handlers emit `podgrip` and `podgripup`, never the `gripdown`/`gripup` names,
   and the only slot they touch is the grip slot.
   */
  lemma GripUsesPodNames(s: CursorState)
    ensures !Emitted(OnGripDown(s).trace, GRIPDOWN) && Emitted(OnGripDown(s).trace, PODGRIP)
    ensures !Emitted(OnGripUp(s).trace, GRIPUP) && Emitted(OnGripUp(s).trace, PODGRIPUP)
    ensures OnGripDown(s).state.intersected == s.intersected
    ensures OnGripDown(s).state.mouseDown == s.mouseDown
    ensures OnGripDown(s).state.gripDown == s.intersected
    ensures OnGripUp(s).state == s
  {
  }

  /** Every input keeps the tag invariant. */
  lemma DispatchKeepsTags(s: CursorState, input: Input)
    requires TagsTrack(s)
    ensures TagsTrack(Dispatch(s, input).state)
  {
  }

  /** Every sequence of inputs keeps the tag invariant. */
  lemma {:induction false} RunKeepsTags(s: CursorState, inputs: seq<Input>)
    requires TagsTrack(s)
    ensures TagsTrack(Run(s, inputs).state)
    decreases |inputs|
  {
    if inputs != [] {
      DispatchKeepsTags(s, inputs[0]);
      RunKeepsTags(Dispatch(s, inputs[0]).state, inputs[1..]);
    }
  }

  /** Folding over two input sequences one after the other is folding over their concatenation. */
  lemma {:induction false} FoldAppend(step: (CursorState, Input) -> Step, s: CursorState, a: seq<Input>, b: seq<Input>)
    ensures Fold(step, s, a + b).state == Fold(step, Fold(step, s, a).state, b).state
    ensures Fold(step, s, a + b).trace == Fold(step, s, a).trace + Fold(step, Fold(step, s, a).state, b).trace
    decreases |a|
  {
    if a == [] {
      assert a + b == b;
    } else {
      var h := step(s, a[0]);
      assert (a + b)[0] == a[0];
      assert (a + b)[1..] == a[1..] + b;
      var ra := Fold(step, h.state, a[1..]);
      FoldAppend(step, h.state, a[1..], b);
      assert h.trace + (ra.trace + Fold(step, ra.state, b).trace) == (h.trace + ra.trace) + Fold(step, ra.state, b).trace;
    }
  }

  /** Running two input sequences one after the other is running their concatenation. */
  lemma RunAppend(s: CursorState, a: seq<Input>, b: seq<Input>)
    ensures Run(s, a + b).state == Run(Run(s, a).state, b).state
    ensures Run(s, a + b).trace == Run(s, a).trace + Run(Run(s, a).state, b).trace
  {
    FoldAppend(Dispatch, s, a, b);
  }

  /** Running a single input is dispatching it. */
  lemma RunOne(s: CursorState, input: Input)
    ensures Run(s, [input]).state == Dispatch(s, input).state
    ensures Run(s, [input]).trace == Dispatch(s, input).trace
  {
    var h := Dispatch(s, input);
    assert [input][1..] == [];
    assert Fold(Dispatch, h.state, []) == Step(h.state, [], false);
    assert Run(s, [input]) == Step(h.state, h.trace + [], h.threw || false);
    assert h.trace + [] == h.trace;
  }

  /** Running `inputs` and then one more input. */
  lemma RunSnoc(s: CursorState, inputs: seq<Input>, input: Input)
    ensures Run(s, inputs + [input]).state == Dispatch(Run(s, inputs).state, input).state
    ensures Run(s, inputs + [input]).trace == Run(s, inputs).trace + Dispatch(Run(s, inputs).state, input).trace
  {
    RunAppend(s, inputs, [input]);
    RunOne(Run(s, inputs).state, input);
  }

  /**
   Press and release while tracking `a` with the handlers attached: `mousedown`, `mouseup`
   and one `click`, each to the cursor and then to `a`.
   */
  lemma PressReleaseClicks(s: CursorState, a: Id)
    requires s.listening && s.intersected == El(a)
    ensures Run(s, [TriggerDown, TriggerUp]).trace == [
      Emission(Cursor, MOUSEDOWN, IntersectedEl(El(a))), Emission(Entity(a), MOUSEDOWN, CursorEl),
      Emission(Cursor, MOUSEUP, IntersectedEl(El(a))), Emission(Entity(a), MOUSEUP, CursorEl),
      Emission(Cursor, CLICK, IntersectedEl(El(a))), Emission(Entity(a), CLICK, CursorEl)]
  {
  }

  /** Press and release with nothing tracked: `mousedown` and `mouseup` to the cursor only, no click. */
  lemma PressReleaseIdleNoClick(s: CursorState)
    requires s.listening && Idle(s)
    ensures Run(s, [TriggerDown, TriggerUp]).trace == [
      Emission(Cursor, MOUSEDOWN, IntersectedEl(s.intersected)),
      Emission(Cursor, MOUSEUP, IntersectedEl(s.intersected))]
    ensures !Emitted(Run(s, [TriggerDown, TriggerUp]).trace, CLICK)
  {
  }

  /**
   Drag-off cancellation: press on `a`, the intersection clears, `b` is found, release.
   The trace is `mousedown` and `mouseleave` for `a`, `mouseenter` for `b`, then `mouseup`
   for `b`, each to the cursor and then to the entity: no `click` is emitted.
   */
  lemma DragOffNoClick(s: CursorState, a: Id, c: Ref, b: Id)
    requires s.listening && s.intersected == El(a) && c.Truthy() && a != b
    ensures Run(s, [TriggerDown, IntersectionCleared(c), Intersection([b]), TriggerUp]).trace == [
      Emission(Cursor, MOUSEDOWN, IntersectedEl(El(a))), Emission(Entity(a), MOUSEDOWN, CursorEl),
      Emission(Cursor, MOUSELEAVE, IntersectedEl(El(a))), Emission(Entity(a), MOUSELEAVE, CursorEl),
      Emission(Cursor, MOUSEENTER, IntersectedEl(El(b))), Emission(Entity(b), MOUSEENTER, CursorEl),
      Emission(Cursor, MOUSEUP, IntersectedEl(El(b))), Emission(Entity(b), MOUSEUP, CursorEl)]
    ensures !Emitted(Run(s, [TriggerDown, IntersectionCleared(c), Intersection([b]), TriggerUp]).trace, CLICK)
    ensures Run(s, [TriggerDown, IntersectionCleared(c), Intersection([b]), TriggerUp]).state.intersected == El(b)
    ensures Run(s, [TriggerDown, IntersectionCleared(c), Intersection([b]), TriggerUp]).state.mouseDown == El(a)
  {
    var inputs := [TriggerDown, IntersectionCleared(c), Intersection([b]), TriggerUp];
    var pre := [TriggerDown, IntersectionCleared(c), Intersection([b])];
    assert inputs == pre + [TriggerUp];
    RunSnoc(s, pre, TriggerUp);
    assert pre == [TriggerDown, IntersectionCleared(c)] + [Intersection([b])];
    RunSnoc(s, [TriggerDown, IntersectionCleared(c)], Intersection([b]));
    assert [TriggerDown, IntersectionCleared(c)] == [TriggerDown] + [IntersectionCleared(c)];
    RunSnoc(s, [TriggerDown], IntersectionCleared(c));
    RunOne(s, TriggerDown);
    var before := Run(s, pre).trace;
    var last := Dispatch(Run(s, pre).state, TriggerUp).trace;
    assert !Clicks(Run(s, pre).state);
    MouseUpClickIff(Run(s, pre).state);
    assert forall i :: 0 <= i < |before| ==> before[i].name in {MOUSEDOWN, MOUSELEAVE, MOUSEENTER};
    assert !Emitted(before, CLICK);
    assert !Emitted(last, CLICK);
    assert Run(s, inputs).trace == before + last;
  }

  /**
   Drag-off without a clear: press on `a`, the ray retargets directly to `b`, release.
   No `click` is emitted and no `mouseleave` either.
   */
  lemma RetargetNoClick(s: CursorState, a: Id, b: Id)
    requires s.listening && s.intersected == El(a) && a != b
    ensures !Emitted(Run(s, [TriggerDown, Intersection([b]), TriggerUp]).trace, CLICK)
    ensures !Emitted(Run(s, [TriggerDown, Intersection([b]), TriggerUp]).trace, MOUSELEAVE)
  {
    var inputs := [TriggerDown, Intersection([b]), TriggerUp];
    var pre := [TriggerDown, Intersection([b])];
    assert inputs == pre + [TriggerUp];
    RunSnoc(s, pre, TriggerUp);
    assert pre == [TriggerDown] + [Intersection([b])];
    RunSnoc(s, [TriggerDown], Intersection([b]));
    RunOne(s, TriggerDown);
    var t := Run(s, inputs).trace;
    assert forall i :: 0 <= i < |t| ==> t[i].name in {MOUSEDOWN, MOUSEENTER, MOUSEUP};
  }

  /**
   Returning to the pressed entity before release still clicks: press on `a`, clear,
   `a` is found again, release.
   */
  lemma ReturnToPressedClicks(s: CursorState, a: Id, c: Ref)
    requires s.listening && s.intersected == El(a) && c.Truthy()
    ensures Emitted(Run(s, [TriggerDown, IntersectionCleared(c), Intersection([a]), TriggerUp]).trace, CLICK)
  {
    var inputs := [TriggerDown, IntersectionCleared(c), Intersection([a]), TriggerUp];
    var pre := [TriggerDown, IntersectionCleared(c), Intersection([a])];
    assert inputs == pre + [TriggerUp];
    RunSnoc(s, pre, TriggerUp);
    assert pre == [TriggerDown, IntersectionCleared(c)] + [Intersection([a])];
    RunSnoc(s, [TriggerDown, IntersectionCleared(c)], Intersection([a]));
    assert [TriggerDown, IntersectionCleared(c)] == [TriggerDown] + [IntersectionCleared(c)];
    RunSnoc(s, [TriggerDown], IntersectionCleared(c));
    RunOne(s, TriggerDown);
    var u := Run(s, pre).state;
    assert Clicks(u);
    MouseUpClickIff(u);
    var before := Run(s, pre).trace;
    var last := Dispatch(u, TriggerUp).trace;
    assert Run(s, inputs).trace == before + last;
    var k :| 0 <= k < |last| && last[k].name == CLICK;
    assert (before + last)[|before| + k].name == CLICK;
  }

  /** While the handlers are detached, every input but `play` is ignored. */
  lemma {:induction false} DetachedIgnores(s: CursorState, inputs: seq<Input>)
    requires !s.listening
    requires forall i :: 0 <= i < |inputs| ==> !inputs[i].Play?
    ensures Run(s, inputs) == Step(s, [], false)
    decreases |inputs|
  {
    if inputs != [] {
      DetachedIgnores(s, inputs[1..]);
    }
  }

  /**
   After `pause`, every input but `play` is ignored: a pause followed by any play-free run
   emits nothing and leaves the paused state as it is.
   */
  lemma PauseSilences(s: CursorState, inputs: seq<Input>)
    requires forall i :: 0 <= i < |inputs| ==> !inputs[i].Play?
    ensures Run(s, [Pause] + inputs).trace == []
    ensures Run(s, [Pause] + inputs).state == s.(listening := false)
  {
    var paused := Dispatch(s, Pause).state;
    DetachedIgnores(paused, inputs);
    RunAppend(s, [Pause], inputs);
    RunOne(s, Pause);
  }

  /**
   While attached, the grip buttons run the grip handlers: a grip press and release on `a`
   emit `podgrip` and `podgripup` to the cursor and then to `a`, and record `a` as gripped.
   */
  lemma GripPressRelease(s: CursorState, a: Id)
    requires s.listening && s.intersected == El(a)
    ensures Run(s, [GripDown, GripUp]).trace == [
      Emission(Cursor, PODGRIP, IntersectedEl(El(a))), Emission(Entity(a), PODGRIP, CursorEl),
      Emission(Cursor, PODGRIPUP, IntersectedEl(El(a))), Emission(Entity(a), PODGRIPUP, CursorEl)]
    ensures Run(s, [GripDown, GripUp]).state == s.(gripDown := El(a))
  {
    assert [GripDown, GripUp] == [GripDown] + [GripUp];
    RunSnoc(s, [GripDown], GripUp);
    RunOne(s, GripDown);
  }
}

=== FILE: pod_layout.dfy ===
/**
 The pod layout: the client-side list of cluster pods kept in step with `initPod`,
 `newPod` and `removePod` messages from a socket, the outbound `sniffPods` and
 `k8sDestroyPod` requests, and the mapping of the list to child pod views.

 State updates are treated as synchronous assignments, and the socket's outbound side as
 an append-only log of messages inside the state.
 */
module PodLayout {

  datatype Option<T> = None | Some(value: T)

  /** A pod record as received from the socket; any field may be missing. */
  datatype Pod = Pod(
    name: Option<string>,
    ip: Option<string>,
    namespace: Option<string>,
    start: Option<string>,
    podType: Option<string>
  )

  /** JavaScript truthiness of a pod's `name`: present and non-empty. */
  predicate HasName(p: Pod): (b: bool)
    ensures b <==> p.name != None && p.name != Some("")
  {
    p.name.Some? && |p.name.value| > 0
  }

  /** Payload of an outbound socket message. */
  datatype Payload = Text(text: string) | NameRecord(name: string)

  datatype Message = Message(event: string, payload: Payload)

  const SNIFF_PODS := "sniffPods"
  const DESTROY_POD := "k8sDestroyPod"

  datatype LayoutState = LayoutState(
    pods: seq<Pod>,     // the visible pods, in arrival order
    podsLoaded: bool,   // whether a full snapshot has arrived
    sent: seq<Message>  // outbound socket messages, oldest first
  )

  /** A child view of the rendered layout. */
  datatype PodView = PodView(
    key: Option<string>,
    name: Option<string>,
    ip: Option<string>,
    startTime: Option<string>,
    namespace: Option<string>,
    podType: Option<string>,
    color: string
  )

  /** The rendered tree: a holder entity with one view per pod, or a lone placeholder view. */
  datatype Tree = Holder(id: string, children: seq<PodView>) | Lone(view: PodView)

  const POD_COLOR := "#3774E0"
  const HOLDER_ID := "podHolder"

  /** Inbound socket messages. */
  datatype Inbound = InitPod(podList: seq<Pod>) | NewPod(pod: Pod) | RemovePod(pod: Pod)

  /** The constructor's state: no pods, no snapshot yet, nothing sent. */
  function Initial(): (r: LayoutState)
    ensures |r.pods| == 0 && !r.podsLoaded && |r.sent| == 0
  {
    LayoutState([], false, [])
  }

  /** `podInitEvent`: the snapshot replaces the whole list and marks it loaded. */
  function PodInit(s: LayoutState, podList: seq<Pod>): (r: LayoutState)
    ensures r.pods == podList && r.podsLoaded
    ensures r.sent == s.sent
  {
    s.(pods := podList, podsLoaded := true)
  }

  /** `podAddEvent`: a pod with a name is appended; one without is dropped. */
  function PodAdd(s: LayoutState, pod: Pod): (r: LayoutState)
    ensures HasName(pod) ==> |r.pods| == |s.pods| + 1 && r.pods[|s.pods|] == pod
    ensures HasName(pod) ==> r.pods[..|s.pods|] == s.pods
    ensures !HasName(pod) ==> r == s
    ensures r.podsLoaded == s.podsLoaded && r.sent == s.sent
  {
    if HasName(pod) then s.(pods := s.pods + [pod]) else s
  }

  /**
   The entries of `pods` whose name differs from `name`, in order: the list filter of
   `podRemoveEvent`. A missing name equals a missing name, as `undefined != null` is false.
   */
  function Without(pods: seq<Pod>, name: Option<string>): (r: seq<Pod>)
    ensures |r| <= |pods|
    ensures forall i :: 0 <= i < |r| ==> r[i].name != name
    ensures forall p: Pod :: p.name != name ==> multiset(r)[p] == multiset(pods)[p]
    ensures multiset(r) <= multiset(pods)
    decreases |pods|
  {
    if pods == [] then []
    else
      var rest := Without(pods[1..], name);
      assert pods == [pods[0]] + pods[1..];
      if pods[0].name != name then [pods[0]] + rest else rest
  }

  /** `podRemoveEvent`: drop every entry named like the removed pod. */
  function PodRemove(s: LayoutState, pod: Pod): (r: LayoutState)
    ensures forall i :: 0 <= i < |r.pods| ==> r.pods[i].name != pod.name
    ensures forall p: Pod :: p.name != pod.name ==> multiset(r.pods)[p] == multiset(s.pods)[p]
    ensures multiset(r.pods) <= multiset(s.pods)
    ensures |r.pods| <= |s.pods|
    ensures r.podsLoaded == s.podsLoaded && r.sent == s.sent
  {
    s.(pods := Without(s.pods, pod.name))
  }

  /** `componentDidMount` through `loadPodsFromServer`: ask the server for a snapshot. */
  function Mount(s: LayoutState): (r: LayoutState)
    ensures r.sent == s.sent + [Message(SNIFF_PODS, Text("true"))]
    ensures r.pods == s.pods && r.podsLoaded == s.podsLoaded
  {
    s.(sent := s.sent + [Message(SNIFF_PODS, Text("true"))])
  }

  /**
   `destroyChildPod`: ask the server to destroy the pod whose entity id is `srcId`.
   The local list is untouched; removal arrives later as a `removePod` message.
   */
  function DestroyChildPod(s: LayoutState, srcId: string): (r: LayoutState)
    ensures |r.sent| == |s.sent| + 1 && r.sent[..|s.sent|] == s.sent
    ensures r.sent[|s.sent|] == Message(DESTROY_POD, NameRecord(srcId))
    ensures r.pods == s.pods && r.podsLoaded == s.podsLoaded
  {
    s.(sent := s.sent + [Message(DESTROY_POD, NameRecord(srcId))])
  }

  /** The view of one pod, keyed and named by the pod's name. */
  function ViewOf(p: Pod): (v: PodView)
    ensures v.key == p.name && v.name == p.name
    ensures v.ip == p.ip && v.startTime == p.start && v.namespace == p.namespace && v.podType == p.podType
    ensures v.color == POD_COLOR
  {
    PodView(p.name, p.name, p.ip, p.start, p.namespace, p.podType, POD_COLOR)
  }

  /** The placeholder shown until a snapshot arrives. */
  const PLACEHOLDER := PodView(Some("test"), Some("test"), None, None, None, None, "red")

  /** The child views of a loaded list, one per pod, in order. */
  function Views(pods: seq<Pod>): (r: seq<PodView>)
    ensures |r| == |pods|
    ensures forall i :: 0 <= i < |pods| ==> r[i] == ViewOf(pods[i])
  {
    seq(|pods|, i requires 0 <= i < |pods| => ViewOf(pods[i]))
  }

  /** `render`: the holder with one view per pod once loaded, the placeholder before. */
  function Render(s: LayoutState): (r: Tree)
    ensures s.podsLoaded ==> r.Holder? && r.id == HOLDER_ID && |r.children| == |s.pods|
    ensures s.podsLoaded ==> forall i :: 0 <= i < |s.pods| ==>
      r.children[i].key == s.pods[i].name && r.children[i].name == s.pods[i].name
    ensures !s.podsLoaded ==> r == Lone(PLACEHOLDER)
  {
    if s.podsLoaded then Holder(HOLDER_ID, Views(s.pods)) else Lone(PLACEHOLDER)
  }

  /** Deliver one inbound socket message. */
  function Receive(s: LayoutState, m: Inbound): (r: LayoutState)
    ensures r.sent == s.sent
    ensures s.podsLoaded ==> r.podsLoaded
  {
    match m
    case InitPod(podList) => PodInit(s, podList)
    case NewPod(pod) => PodAdd(s, pod)
    case RemovePod(pod) => PodRemove(s, pod)
  }

  /** Deliver inbound socket messages in order. */
  function ReceiveAll(s: LayoutState, ms: seq<Inbound>): (r: LayoutState)
    decreases |ms|
  {
    if ms == [] then s else ReceiveAll(Receive(s, ms[0]), ms[1..])
  }
}

=== FILE: pod_layout_laws.dfy ===
/**
 Properties of the pod layout: the remove filter characterised independently (order kept,
 exactly the differently named entries kept, idempotent, a no-op exactly when nothing
 matches), the snapshot discarding earlier adds, the outbound log, and the rendered views.
 */
module PodLayoutLaws {
  import opened PodLayout

  /** `a` is `b` with some entries deleted, order kept. */
  predicate IsSubsequence<T(==)>(a: seq<T>, b: seq<T>)
    decreases |b|
  {
    if a == [] then true
    else if b == [] then false
    else if a[0] == b[0] then IsSubsequence(a[1..], b[1..])
    else IsSubsequence(a, b[1..])
  }

  /** True when no entry of `pods` carries `name`. */
  predicate NoneNamed(pods: seq<Pod>, name: Option<string>) {
    forall i :: 0 <= i < |pods| ==> pods[i].name != name
  }

  /** The remove filter keeps the original order: its result is a subsequence of its input. */
  lemma {:induction false} WithoutIsSubsequence(pods: seq<Pod>, name: Option<string>)
    ensures IsSubsequence(Without(pods, name), pods)
    decreases |pods|
  {
    if pods != [] {
      WithoutIsSubsequence(pods[1..], name);
      var rest := Without(pods[1..], name);
      if pods[0].name != name {
        assert Without(pods, name) == [pods[0]] + rest;
        assert ([pods[0]] + rest)[1..] == rest;
      } else {
        assert Without(pods, name) == rest;
        if rest != [] {
          assert rest[0].name != name;
          assert rest[0] != pods[0];
        }
      }
    }
  }

  /** Removing is a no-op exactly when no entry carries the removed name. */
  lemma WithoutNoopIff(pods: seq<Pod>, name: Option<string>)
    ensures Without(pods, name) == pods <==> NoneNamed(pods, name)
  {
    if NoneNamed(pods, name) {
      WithoutKeepsUnnamed(pods, name);
    }
  }

  /** With nothing to remove, the filter returns its input. */
  lemma {:induction false} WithoutKeepsUnnamed(pods: seq<Pod>, name: Option<string>)
    requires NoneNamed(pods, name)
    ensures Without(pods, name) == pods
    decreases |pods|
  {
    if pods != [] {
      assert pods[0].name != name;
      WithoutKeepsUnnamed(pods[1..], name);
      assert pods == [pods[0]] + pods[1..];
    }
  }

  /** Removing the same name twice equals removing it once. */
  lemma WithoutIdempotent(pods: seq<Pod>, name: Option<string>)
    ensures Without(Without(pods, name), name) == Without(pods, name)
  {
    WithoutKeepsUnnamed(Without(pods, name), name);
  }

  /** The filter distributes over concatenation. */
  lemma {:induction false} WithoutAppend(a: seq<Pod>, b: seq<Pod>, name: Option<string>)
    ensures Without(a + b, name) == Without(a, name) + Without(b, name)
    decreases |a|
  {
    if a == [] {
      assert a + b == b;
    } else {
      assert (a + b)[0] == a[0];
      assert (a + b)[1..] == a[1..] + b;
      WithoutAppend(a[1..], b, name);
    }
  }

  /** Adding a pod and then removing its name equals just removing the name. */
  lemma RemoveUndoesAdd(s: LayoutState, pod: Pod)
    ensures PodRemove(PodAdd(s, pod), pod) == PodRemove(s, pod)
  {
    if HasName(pod) {
      WithoutAppend(s.pods, [pod], pod.name);
      assert Without([pod], pod.name) == [];
      assert Without(s.pods, pod.name) + [] == Without(s.pods, pod.name);
    }
  }

  /**
   A remove event: no remaining entry has the name, every differently named entry survives
   with its multiplicity, order is kept, and a repeat changes nothing.
   */
  lemma RemoveRemovesAll(s: LayoutState, pod: Pod)
    ensures NoneNamed(PodRemove(s, pod).pods, pod.name)
    ensures forall p: Pod :: p.name != pod.name ==> multiset(PodRemove(s, pod).pods)[p] == multiset(s.pods)[p]
    ensures IsSubsequence(PodRemove(s, pod).pods, s.pods)
    ensures PodRemove(PodRemove(s, pod), pod) == PodRemove(s, pod)
    ensures PodRemove(s, pod) == s <==> NoneNamed(s.pods, pod.name)
  {
    WithoutIsSubsequence(s.pods, pod.name);
    WithoutIdempotent(s.pods, pod.name);
    WithoutNoopIff(s.pods, pod.name);
  }

  /** Duplicate names are not rejected: adding a named pod twice lists it twice. */
  lemma AddKeepsDuplicates(s: LayoutState, pod: Pod)
    requires HasName(pod)
    ensures PodAdd(PodAdd(s, pod), pod).pods == s.pods + [pod, pod]
  {
  }

  /** Delivering `ms` and then one more message. */
  lemma {:induction false} ReceiveAllSnoc(s: LayoutState, ms: seq<Inbound>, m: Inbound)
    ensures ReceiveAll(s, ms + [m]) == Receive(ReceiveAll(s, ms), m)
    decreases |ms|
  {
    if ms == [] {
      assert ms + [m] == [m];
      assert [m][1..] == [];
    } else {
      assert (ms + [m])[0] == ms[0];
      assert (ms + [m])[1..] == ms[1..] + [m];
      ReceiveAllSnoc(Receive(s, ms[0]), ms[1..], m);
    }
  }

  /** A snapshot discards whatever was received before it and marks the list loaded. */
  lemma InitDiscardsEarlier(s: LayoutState, ms: seq<Inbound>, podList: seq<Pod>)
    ensures ReceiveAll(s, ms + [InitPod(podList)]).pods == podList
    ensures ReceiveAll(s, ms + [InitPod(podList)]).podsLoaded
  {
    ReceiveAllSnoc(s, ms, InitPod(podList));
  }

  /** Inbound messages never send anything and never unload the list. */
  lemma {:induction false} ReceiveAllKeepsLog(s: LayoutState, ms: seq<Inbound>)
    ensures ReceiveAll(s, ms).sent == s.sent
    ensures s.podsLoaded ==> ReceiveAll(s, ms).podsLoaded
    decreases |ms|
  {
    if ms != [] {
      ReceiveAllKeepsLog(Receive(s, ms[0]), ms[1..]);
    }
  }

  /** True when every entry has a name. */
  predicate AllNamed(pods: seq<Pod>) {
    forall i :: 0 <= i < |pods| ==> HasName(pods[i])
  }

  /** Until a snapshot arrives, only named pods are listed: adds check the name, removes only filter. */
  lemma {:induction false} NamedUntilLoaded(s: LayoutState, ms: seq<Inbound>)
    requires !s.podsLoaded ==> AllNamed(s.pods)
    ensures !ReceiveAll(s, ms).podsLoaded ==> AllNamed(ReceiveAll(s, ms).pods)
    decreases |ms|
  {
    if ms != [] {
      var s1 := Receive(s, ms[0]);
      if !s1.podsLoaded {
        assert !s.podsLoaded;
        match ms[0]
        case InitPod(_) =>
        case NewPod(p) =>
        case RemovePod(p) =>
          var r := Without(s.pods, p.name);
          forall i | 0 <= i < |r| ensures HasName(r[i]) {
            assert r[i] in multiset(r);
            assert r[i] in multiset(s.pods);
            var j :| 0 <= j < |s.pods| && s.pods[j] == r[i];
          }
      }
      NamedUntilLoaded(s1, ms[1..]);
    }
  }

  /** The constructor's state renders the placeholder. */
  lemma InitialRendersPlaceholder()
    ensures Render(Initial()) == Lone(PLACEHOLDER)
    ensures PLACEHOLDER.name == Some("test") && PLACEHOLDER.key == Some("test")
  {
  }

  /** Once loaded, a named add renders one more child, for the added pod, at the end. */
  lemma AddRendersAtEnd(s: LayoutState, pod: Pod)
    requires s.podsLoaded && HasName(pod)
    ensures Render(PodAdd(s, pod)).children == Render(s).children + [ViewOf(pod)]
    ensures Render(PodAdd(s, pod)).children[|s.pods|].name == pod.name
  {
  }

  /** Mounting sends exactly one snapshot request and changes nothing else. */
  lemma MountSendsOneRequest(s: LayoutState)
    ensures |Mount(s).sent| == |s.sent| + 1
    ensures Mount(s).sent[|s.sent|].event == SNIFF_PODS
    ensures Mount(s).pods == s.pods && Mount(s).podsLoaded == s.podsLoaded
    ensures Render(Mount(s)) == Render(s)
  {
  }

  /**
   Destroy-request for a listed pod: one outbound message, and the pod stays listed
   until the matching remove message arrives, which then drops it.
   */
  lemma DestroyWaitsForRemove(s: LayoutState, id: string, pod: Pod)
    requires pod.name == Some(id) && pod in s.pods
    ensures pod in DestroyChildPod(s, id).pods
    ensures DestroyChildPod(s, id).sent == s.sent + [Message(DESTROY_POD, NameRecord(id))]
    ensures pod !in PodRemove(DestroyChildPod(s, id), pod).pods
  {
  }

  /** The snapshot-add-remove scenario: [a, b], then c added, then a removed, gives [b, c]. */
  lemma SnapshotAddRemoveScenario(a: Pod, b: Pod, c: Pod)
    requires a.name == Some("a") && b.name == Some("b") && c.name == Some("c")
    ensures ReceiveAll(Initial(), [InitPod([a, b]), NewPod(c), RemovePod(a)]).pods == [b, c]
    ensures ReceiveAll(Initial(), [InitPod([a, b]), NewPod(c), RemovePod(a)]).podsLoaded
  {
    var ms := [InitPod([a, b]), NewPod(c), RemovePod(a)];
    var s1 := PodInit(Initial(), [a, b]);
    var s2 := PodAdd(s1, c);
    assert s2.pods == [a, b, c] && s2.podsLoaded;
    var s3 := PodRemove(s2, a);
    assert Without([a, b, c], a.name) == Without([b, c], a.name);
    WithoutKeepsUnnamed([b, c], a.name);
    assert s3.pods == [b, c];
    assert ReceiveAll(s3, []) == s3;
    assert ReceiveAll(s2, ms[2..]) == s3;
    assert ReceiveAll(s1, ms[1..]) == s3;

  }
}
